=== FILE: README.md ===
# Recycling game rules, modelled in Dafny

This project models the rule logic of a browser sorting game. Bottles and
cans spawn on a conveyor belt and move toward a wall. The player drags each
one to a bin: `drs` (deposit return) for plastic and aluminium, or the glass
bin of the matching colour. A correct drop earns the item's deposit. A wrong
drop costs €0.50. The belt speeds up every €5, and too large a backlog ends
the game.

In the source this logic sits inside React callbacks. Here it is a set of
pure step functions over immutable records:

- `types.dfy` (`Types`): the `Bottle` item and `GameState` session records.
  Optional fields are `Option`. The balance is kept in integer cents and
  positions are `real`. Also the bins, the abstract events, the shape every
  factory-built item has (`WellFormed`) and the `Math.floor(random * n)`
  index.
- `generator.dfy` (`Generator`): the item factory. It takes the random draws
  as parameters.
- `images.dfy` (`Images`): the table that picks an image pool for an item.
- `scoring.dfy` (`Scoring`): the correct-bin rule, removal of an item by id,
  the reward and penalty, and the win trigger.
- `speed.dfy` (`Speed`): speed tiers and the one-shot speed-up event.
- `conveyor.dfy` (`Conveyor`): one belt step per item, judged against the
  positions before the step, then the game-over check.
- `session.dfy` (`Session`): spawn, the main tick, drop, restart and the end
  of the win celebration. It also holds the invariant they keep: ids
  distinct and below the counter, items well-formed, balance non-negative,
  belt speed in [1, 3].
- `gameover.dfy` (`GameOverSummary`): the game-over message and the final
  speed.

Randomness, the clock (`now`) and the viewport width are parameters. The
sounds and celebrations the code triggers appear as `Event` values in each
step's output.

Three behaviours of the code matter here:

- The belt step applies to every item, settled or not. The code maps the
  whole list.
- A drop on any bin other than the correct one is penalised. The bins only
  ever pass `drs`, `green`, `clear` or `brown`, so `Bin` has exactly those
  four values.
- Restart does not clear the win-celebration flag. Only the end of the
  celebration (`WinTimeout`) clears it.

## Model

| member | source | states |
|---|---|---|
| Types.ScaledBelow | src/utils/bottleGenerator.ts:9 | A draw in [0, 1) times n lies in [0, n], and strictly below n when n > 0 |
| Types.PickIndex | src/utils/bottleGenerator.ts:9 | For a draw in [0, 1) and a non-empty list, `floor(draw * n)` is a valid index, and it is the floor of `draw * n` |
| Generator.GenerateBottle | src/utils/bottleGenerator.ts:3-54 | Draw below 0.4 gives plastic/bottle with deposit 15 or 25 and no colour. 0.4 up to 0.7 gives aluminium/can with deposit exactly 15. 0.7 and above gives glass/bottle with a colour and no deposit. The id is the argument. The item starts at x = width + 100, y = 0, rotation 0, velocity (0, 0), not settled. Every result is well-formed |
| Generator.PlasticDepositChoice | src/utils/bottleGenerator.ts:8-9 | A plastic bottle gets 15 cents exactly when the second draw is below 0.5, and 25 cents otherwise |
| Generator.GlassColorChoice | src/utils/bottleGenerator.ts:39-40 | A glass bottle is green, clear or brown exactly when the second draw falls in the first, second or last third |
| Images.SelectPool | src/utils/imageManager.ts:84-109 | Aluminium/can/15 and plastic/bottle/15 give the 15c pool. The 25c pool is chosen iff plastic/bottle/25. A glass pool is chosen iff glass/bottle: green or brown by colour, the white pool for clear or no colour |
| Images.ImageForBottle | src/utils/imageManager.ts:111-116 | An empty selected pool gives the fixed fallback path. A non-empty pool gives one of its own elements |
| Images.WellFormedSelectsIntendedPool | src/utils/imageManager.ts:84-109 | For every factory-built item, the table picks the pool named by deposit (plastic), 15c (cans) or colour (glass). The catch-all branch is never reached by such items |
| Images.OddCombinationsFallBack | src/utils/imageManager.ts:106-109 | Aluminium without a 15 deposit, glass/can, and plastic/bottle with a deposit other than 15 or 25 all fall back to the 15c pool |
| Scoring.CorrectBin | src/components/GameEngine.tsx:415-418 | A well-formed item has exactly one correct bin: `drs` for plastic and aluminium, the bin of its colour for glass |
| Scoring.RemoveById | src/components/GameEngine.tsx:469 | The remaining items are exactly those of the input whose id differs, and the list never grows |
| Scoring.RemoveByIdAppend | src/components/GameEngine.tsx:469 | Removal by id distributes over concatenation, so relative order is kept |
| Scoring.RemoveByIdAt | src/components/GameEngine.tsx:469 | With distinct ids, removing the id at position k gives the list with exactly that item spliced out, the rest in order |
| Scoring.RemoveByIdKeepsDistinct | src/components/GameEngine.tsx:488 | Removal keeps ids distinct |
| Scoring.Reward | src/components/GameEngine.tsx:440-446 | Glass earns nothing. Plastic and aluminium earn their deposit, and nothing when the deposit is absent |
| Scoring.Drop | src/components/GameEngine.tsx:412-492 | The item is removed by id either way, and only the score changes besides. A correct drop adds the deposit for plastic and aluminium and 0 for glass. A wrong one sets the score to max(0, score − 50). The win starts iff the drop is correct, the new score is at least €100 and no win is active. A correct drop never reports the error sound. Without a win it reports the material's crush sound then one success sound. With a win it reports the crush sound, the celebration, the win's success sound, then the delayed success sound. A wrong drop reports only the error sound |
| Scoring.DropKeepsScoreNonNegative | src/components/GameEngine.tsx:481-491 | A non-negative balance stays non-negative after any drop of a well-formed item. A wrong drop never raises it and a correct one never lowers it |
| Scoring.PlasticDropScenario | src/components/GameEngine.tsx:439-471 | A 15-cent plastic bottle dropped on `drs` with an empty balance leaves €0.15 and no items |
| Scoring.WrongGlassScenario | src/components/GameEngine.tsx:481-491 | A green bottle is wrong in the `clear` bin and costs €0.50, floored at 0 |
| Scoring.WinScenario | src/components/GameEngine.tsx:452-466 | From €99.90 a correct 15-cent drop gives €100.05 and starts the win. A further drop while the win is active does not start it again |
| Speed.Tier | src/components/GameEngine.tsx:317 | The tier is the floor of balance / €5: tier·500 ≤ score < (tier+1)·500, and it is non-negative for a non-negative balance |
| Speed.SpeedFor | src/components/GameEngine.tsx:318 | The belt speed never exceeds 3, and is at least 1 for a non-negative balance |
| Speed.SpeedForTiers | src/components/GameEngine.tsx:317-318 | Below €50 the speed is 1 + 0.2·tier. From €50 on it is the cap 3.0 |
| Speed.TierMonotone | src/components/GameEngine.tsx:317 | A larger balance never has a lower tier |
| Speed.SpeedMonotone | src/components/GameEngine.tsx:317-318 | A larger balance never gives a slower belt |
| Speed.SpeedCheck | src/components/GameEngine.tsx:317-349 | The speed-up event fires iff tier > last tier and tier > 0. It carries the new speed and milestone tier·5 and sets the last tier to the tier. Otherwise the last tier is unchanged, so it never decreases |
| Speed.FiredTiersIncrease | src/components/GameEngine.tsx:321-345 | Over any sequence of balances, the announced tiers are positive, above the starting tier and strictly increasing. So each tier is announced at most once, and the remembered tier never drops. It ends at the last tier announced, or at the starting tier when none is |
| Speed.TwoCrossingsScenario | src/components/GameEngine.tsx:321-345 | A balance passing €4.90, €5.10, €9.90, €10.10 announces exactly tiers 1 and 2 |
| Conveyor.StepBottle | src/components/GameEngine.tsx:243-286 | The item's id and kind fields are kept. Blocked means some other item in the snapshot is strictly ahead within 40. A blocked item keeps x, gets velocity (−0.3, 0), is unsettled and gets rotation (draw − 0.5)·4. An unblocked item reaching ≤ 50 after moving speed·1.5 is held at 50 with velocity (0.2, 0), unsettled, with rotation (draw − 0.5)·6. Any other item only moves |
| Conveyor.Transport | src/components/GameEngine.tsx:243-286 | Every item, settled or not, takes its own step against the same pre-step snapshot. The count is kept |
| Conveyor.TransportKeepsItems | src/components/GameEngine.tsx:243-286 | Transport keeps every item in order with its id, material, subtype, colour, deposit and height, and keeps well-formedness both ways |
| Conveyor.TransportRespectsWall | src/components/GameEngine.tsx:266-280 | An item at or right of the wall stays at or right of it. An item that moves never ends left of the wall |
| Conveyor.TransportNeverMovesRight | src/components/GameEngine.tsx:266-285 | With a non-negative speed, no item right of the wall moves right |
| Conveyor.BacklogCountMonotone | src/components/GameEngine.tsx:289 | If every backlog item keeps its place in the backlog, the backlog count cannot fall |
| Conveyor.BacklogCountAll | src/components/GameEngine.tsx:289 | When every item is at or left of x = 80, the backlog is the whole list |
| Conveyor.TransportKeepsBacklog | src/components/GameEngine.tsx:243-289 | Under a forward-running belt the backlog count never shrinks |
| Conveyor.UpdatePositions | src/components/GameEngine.tsx:239-308 | The items are transported. isPlaying becomes false iff it was true and more than 8 items are at x ≤ 80 or more than 12 have a velocity and are not settled. It is never set to true. Score, speed, level and id counter are unchanged. The error sound is reported exactly when the game ends |
| Conveyor.FewItemsNeverOverflow | src/components/GameEngine.tsx:289-301 | With at most 8 items on the belt, the transport tick never ends the game |
| Conveyor.BacklogEndsGame | src/components/GameEngine.tsx:289-301 | A running game with more than 8 items already at x ≤ 80 ends on the next transport tick, reporting the error sound |
| Conveyor.NineAtSixtyEndsGame | src/components/GameEngine.tsx:289-301 | Nine items at x = 60 end a running game in one transport tick |
| Session.Restart | src/components/GameEngine.tsx:497-512 | Restart gives score 0, level 1, playing, no items, speed 1, id counter 0, spawn clock 0 and last tier 0. The result satisfies the session invariant |
| Session.Spawn | src/components/GameEngine.tsx:122-136 | Strictly more than 2500 ms after the last spawn, exactly one item is appended: the factory's item for the counter and the draws (well-formed, just off screen, at rest, not settled). The counter goes up by one and the spawn time is recorded, with nothing else changed. Otherwise nothing changes. The session invariant is kept |
| Session.Tick | src/components/GameEngine.tsx:310-353 | A stopped game does not change. A running one first spawns, then transports the spawned list at the old belt speed. It stops iff the transported list overflows. The id counter and spawn time are the spawn's. The events are the transport's followed by the speed-up event iff the tier is new and positive. The speed ends as the tier speed of the balance. The remembered tier becomes the balance's tier iff that tier is new and positive, and otherwise stays as it was. The tick never restarts a stopped game and never changes the balance. The session invariant is kept |
| Session.DropItem | src/components/GameEngine.tsx:412-495 | The session and events after a drop are the scoring result. The win flag becomes set iff it was set or the drop is correct and reaches €100. Spawn clock and last tier are unchanged |
| Session.DropKeepsValid | src/components/GameEngine.tsx:469-490 | Dropping a well-formed item keeps ids distinct and below the counter, items well-formed and the balance non-negative |
| Session.WinTimeout | src/components/GameEngine.tsx:462-465 | The end of the celebration clears the win flag and performs the full restart of `Session.Restart`: zero balance, level 1, running, no items, speed 1, id counter 0, spawn clock 0 and remembered tier 0. The result satisfies the invariant |
| GameOverSummary.Message | src/components/GameOverScreen.tsx:15-20 | ≥ €5 gives "Excellent recycling! 🌟". €2.50 up to €5 gives "Great job! 🎉". €1 up to €2.50 gives "Good work! 👍". Below €1 gives "Keep trying! 💪". Each holds in both directions |
| GameOverSummary.MessageMonotone | src/components/GameOverScreen.tsx:15-20 | A higher balance never gets a lesser message |
| GameOverSummary.FinalSpeedAsWritten | src/components/GameOverScreen.tsx:40 | The speed shown as written, with one tier per €10, lies in [1, 3] for a non-negative balance |
| GameOverSummary.FinalSpeedAsWrittenLags | src/components/GameOverScreen.tsx:40 | The shown speed is the belt speed of half the reached tier, rounded down, and never exceeds the belt's tier speed. For a non-negative balance it is strictly lower exactly when the final balance is from €5 up to below €100. At €5 it shows 1.0 while the belt ran at 1.2 |
| GameOverSummary.FinalSpeed | src/components/GameOverScreen.tsx:40 | The corrected final speed lies in [1, 3] for a non-negative balance |
| GameOverSummary.FinalSpeedShowsBeltSpeed | src/components/GameEngine.tsx:317-318 | The corrected final speed equals the belt speed a tick of the running game leaves behind |

## Left out

- The physics integrator (`updatePhysics`, src/components/GameEngine.tsx:139-237) is not modelled. It is floating-point numerics tuned for looks: gravity, friction, square-root distances, and pushes that depend on `Math.random` and the window width. Its effect on the items is not part of the transport model. A consequence: a new item starts with velocity (0, 0) and is not settled, and no belt step ever settles an item. So in the model every item counts toward the in-motion total for as long as it is on the belt. In the source, the physics step settles a still item within one 50 ms step (src/components/GameEngine.tsx:145, 220) and clamps x to the window width minus 20 (:185-187). The model's in-motion count is therefore an upper bound on the source's, and the in-motion overflow rule (more than 12 items) can end the game in the model where the source keeps it running.
- Rotation jitter is a parameter (`draws`). The model does not constrain it beyond the formula.
- Balances are exact integer cents. The source adds euro amounts as JavaScript floats, and their rounding is not modelled.
- Positions and the belt speed are exact `real` values. The source uses doubles: `1 + 3*0.2` is 1.6000000000000001 (src/components/GameEngine.tsx:318), and `x - conveyorSpeed*1.5` (:266) builds up rounding error tick after tick. So the comparisons at :247-248, :269 and :289 can come out differently from the model at their boundaries.
- React timing is left out: the `setInterval` loops, pause and resume, `setTimeout` clearing of effects, fullscreen handling, asset preloading and the start gesture. The sub-steps of one main tick run in the order React applies the queued updates: spawn, transport, speed.
- Scoring.Drop: the win guard is the engine's `winActive` flag. In the source the drop handler captures the flag once at mount, so in practice the guard always reads false.
- Audio (src/utils/soundEffects.ts) is replaced by the abstract `Event` values. Vibration and the visual crush and error effects are left out.
- Image caching, preloading and directory globbing (src/utils/imageManager.ts:4-73, 119-154) are left out. The five pools are parameters.
- Rendering and DOM handling are not part of this model: the bins, bottle, conveyor belt, score display, debug panel and app components.
- Conveyor.StepBottle: the rotation is `(draw − 0.5)·4` or `·6` for any draw. It lies in ±2 or ±3 only for a draw in [0, 1), which the model does not require; Conveyor.Transport passes the draws through unchanged.
- Session.Spawn: the generated id is read from the same state the update applies to. The source reads it from the render-time closure, which can lag the queued state.

## Findings

| source | as written | input that shows it | evidently intended | confidence | as-written member | corrected member |
|---|---|---|---|---|---|---|
| src/components/GameOverScreen.tsx:40 | Final speed shown is `min(1 + floor(score/10)·0.2, 3)`, one tier per €10 | Any final balance from €5 up to below €100, e.g. €5: the belt ran at 1.2 (src/components/GameEngine.tsx:317-318) but the screen shows 1.0. Below €5 and from €100 the two agree | The speed the belt reached, `min(1 + floor(score/5)·0.2, 3)` | medium, not executed | GameOverSummary.FinalSpeedAsWrittenLags | GameOverSummary.FinalSpeedShowsBeltSpeed |

=== FILE: conveyor.dfy ===
/** Conveyor transport: one belt step for every item, judged against the
    positions before the step, followed by the backlog check that ends the
    game. */
module Conveyor {
  import opened Types

  /** x of the left wall. */
  const Wall: real := 50.0
  /** An item closer than this to one ahead of it is blocked. */
  const BlockDistance: real := 40.0
  /** Distance per tick at speed multiplier 1. */
  const BeltStep: real := 1.5
  /** Items at or left of this line count as backlog. */
  const BacklogLine: real := 80.0
  /** The game ends when the backlog exceeds this ... */
  const MaxBacklog: int := 8
  /** ... or when more items than this are in motion. */
  const MaxInMotion: int := 12

  const BlockedPush: Velocity := Velocity(-0.3, 0.0)
  const WallBounce: Velocity := Velocity(0.2, 0.0)

  function Abs(v: real): real {
    if v < 0.0 then -v else v
  }

  /** `other` is a different item strictly ahead of `b` and within reach. */
  predicate Blocks(other: Bottle, b: Bottle) {
    other.id != b.id && Abs(other.x - b.x) < BlockDistance && other.x < b.x
  }

  predicate IsBlocked(b: Bottle, snapshot: seq<Bottle>) {
    exists other :: other in snapshot && Blocks(other, b)
  }

  /** The fields a belt step never touches. */
  predicate SameItem(a: Bottle, b: Bottle) {
    && a.id == b.id && a.material == b.material && a.subType == b.subType
    && a.color == b.color && a.depositValue == b.depositValue && a.y == b.y
  }

  /** One item's belt step. A blocked item stays where it is and is pushed
      back into motion; otherwise it moves left by `speed * 1.5`, and one
      reaching the wall is held at the wall and bounced into motion.
      `draw` is the random draw for the tilt a push or a bounce gives. */
  function StepBottle(b: Bottle, snapshot: seq<Bottle>, speed: real, draw: real): (r: Bottle)
    ensures SameItem(r, b)
    ensures IsBlocked(b, snapshot) ==>
      && r.x == b.x
      && r.velocity == Some(BlockedPush) && r.isSettled == Some(false)
      && r.rotation == Some((draw - 0.5) * 4.0)
    ensures !IsBlocked(b, snapshot) && b.x - speed * BeltStep <= Wall ==>
      && r.x == Wall
      && r.velocity == Some(WallBounce) && r.isSettled == Some(false)
      && r.rotation == Some((draw - 0.5) * 6.0)
    ensures !IsBlocked(b, snapshot) && b.x - speed * BeltStep > Wall ==>
      r == b.(x := b.x - speed * BeltStep)
  {
    if IsBlocked(b, snapshot) then
      b.(velocity := Some(BlockedPush), rotation := Some((draw - 0.5) * 4.0), isSettled := Some(false))
    else
      var newX := b.x - speed * BeltStep;
      if newX <= Wall then
        b.(x := Wall, velocity := Some(WallBounce), rotation := Some((draw - 0.5) * 6.0), isSettled := Some(false))
      else
        b.(x := newX)
  }

  /** Every item's step, all judged against the same pre-step positions.
      `draws(i)` is the tilt draw for the item at index `i`. */
  function Transport(bs: seq<Bottle>, speed: real, draws: nat -> real): (r: seq<Bottle>)
    ensures |r| == |bs|
    ensures forall i :: 0 <= i < |bs| ==> r[i] == StepBottle(bs[i], bs, speed, draws(i))
  {
    seq(|bs|, i requires 0 <= i < |bs| => StepBottle(bs[i], bs, speed, draws(i)))
  }

  /** Transport keeps every item, in order, with its identity and kind. */
  lemma TransportKeepsItems(bs: seq<Bottle>, speed: real, draws: nat -> real)
    ensures forall i :: 0 <= i < |bs| ==> SameItem(Transport(bs, speed, draws)[i], bs[i])
    ensures forall i :: 0 <= i < |bs| ==> (WellFormed(Transport(bs, speed, draws)[i]) <==> WellFormed(bs[i]))
  {
  }

  /** No item passes the wall: an item at or right of the wall before the
      step is at or right of it after, and a moved item never ends left of it. */
  lemma TransportRespectsWall(bs: seq<Bottle>, speed: real, draws: nat -> real)
    ensures forall i :: 0 <= i < |bs| && Wall <= bs[i].x ==> Wall <= Transport(bs, speed, draws)[i].x
    ensures forall i :: 0 <= i < |bs| ==>
      Transport(bs, speed, draws)[i].x == bs[i].x || Wall <= Transport(bs, speed, draws)[i].x
  {
  }

  /** With a forward-running belt, no item moves right. */
  lemma TransportNeverMovesRight(bs: seq<Bottle>, speed: real, draws: nat -> real)
    requires speed >= 0.0
    ensures forall i :: 0 <= i < |bs| && Wall <= bs[i].x ==> Transport(bs, speed, draws)[i].x <= bs[i].x
  {
  }

  /** Number of items at or left of the backlog line. */
  function BacklogCount(bs: seq<Bottle>): (n: nat)
    ensures n <= |bs|
    decreases |bs|
  {
    if |bs| == 0 then 0
    else (if bs[0].x <= BacklogLine then 1 else 0) + BacklogCount(bs[1..])
  }

  /** Number of items with a velocity that are not settled. */
  function InMotionCount(bs: seq<Bottle>): (n: nat)
    ensures n <= |bs|
    decreases |bs|
  {
    if |bs| == 0 then 0
    else (if bs[0].InMotion() then 1 else 0) + InMotionCount(bs[1..])
  }

  /** If every item of `a` in the backlog has its counterpart in `b` in the
      backlog too, `b` has at least as large a backlog. */
  lemma {:induction false} BacklogCountMonotone(a: seq<Bottle>, b: seq<Bottle>)
    requires |a| == |b|
    requires forall i :: 0 <= i < |a| && a[i].x <= BacklogLine ==> b[i].x <= BacklogLine
    ensures BacklogCount(a) <= BacklogCount(b)
    decreases |a|
  {
    if |a| > 0 {
      assert forall i :: 0 <= i < |a[1..]| && a[1..][i].x <= BacklogLine ==> b[1..][i].x <= BacklogLine by {
        forall i | 0 <= i < |a[1..]| && a[1..][i].x <= BacklogLine
          ensures b[1..][i].x <= BacklogLine
        {
          assert a[1..][i] == a[i + 1] && b[1..][i] == b[i + 1];
        }
      }
      BacklogCountMonotone(a[1..], b[1..]);
    }
  }

  /** When every item is in the backlog, the backlog is the whole belt. */
  lemma {:induction false} BacklogCountAll(bs: seq<Bottle>)
    requires forall i :: 0 <= i < |bs| ==> bs[i].x <= BacklogLine
    ensures BacklogCount(bs) == |bs|
    decreases |bs|
  {
    if |bs| > 0 {
      assert forall i :: 0 <= i < |bs[1..]| ==> bs[1..][i].x <= BacklogLine by {
        forall i | 0 <= i < |bs[1..]| ensures bs[1..][i].x <= BacklogLine {
          assert bs[1..][i] == bs[i + 1];
        }
      }
      BacklogCountAll(bs[1..]);
    }
  }

  /** The backlog never shrinks under a forward-running belt: items already
      in it stay in it. */
  lemma TransportKeepsBacklog(bs: seq<Bottle>, speed: real, draws: nat -> real)
    requires speed >= 0.0
    ensures BacklogCount(bs) <= BacklogCount(Transport(bs, speed, draws))
  {
    var r := Transport(bs, speed, draws);
    forall i | 0 <= i < |bs| && bs[i].x <= BacklogLine
      ensures r[i].x <= BacklogLine
    {
      assert r[i] == StepBottle(bs[i], bs, speed, draws(i));
    }
    BacklogCountMonotone(bs, r);
  }

  /** The game-over test on the positions after the step. */
  predicate Overflowing(bs: seq<Bottle>) {
    BacklogCount(bs) > MaxBacklog || InMotionCount(bs) > MaxInMotion
  }

  /** The transport tick: moves every item and ends the game when the
      backlog or the number of items in motion is too large. Reports an
      error sound when it ends the game. */
  function UpdatePositions(s: GameState, draws: nat -> real): (r: (GameState, seq<Event>))
    ensures r.0.bottles == Transport(s.bottles, s.conveyorSpeed, draws)
    ensures r.0 == s.(bottles := r.0.bottles, isPlaying := r.0.isPlaying)
    ensures r.0.isPlaying <==> s.isPlaying && !Overflowing(r.0.bottles)
    ensures r.1 == (if s.isPlaying && !r.0.isPlaying then [ErrorSound] else [])
  {
    var moved := Transport(s.bottles, s.conveyorSpeed, draws);
    if Overflowing(moved) && s.isPlaying then
      (s.(bottles := moved, isPlaying := false), [ErrorSound])
    else
      (s.(bottles := moved), [])
  }

  /** With at most eight items on the belt the transport tick never ends
      the game: neither threshold can be exceeded. */
  lemma FewItemsNeverOverflow(s: GameState, draws: nat -> real)
    requires |s.bottles| <= MaxBacklog
    ensures UpdatePositions(s, draws).0.isPlaying == s.isPlaying
  {
  }

  /** More than eight items already in the backlog end a running game on
      the next transport tick. */
  lemma BacklogEndsGame(s: GameState, draws: nat -> real)
    requires s.isPlaying && s.conveyorSpeed >= 0.0
    requires BacklogCount(s.bottles) > MaxBacklog
    ensures !UpdatePositions(s, draws).0.isPlaying
    ensures UpdatePositions(s, draws).1 == [ErrorSound]
  {
    TransportKeepsBacklog(s.bottles, s.conveyorSpeed, draws);
  }

  /** Nine items all at x = 60 end a running game in one transport tick. */
  lemma NineAtSixtyEndsGame(s: GameState, draws: nat -> real)
    requires s.isPlaying && s.conveyorSpeed >= 0.0 && |s.bottles| == 9
    requires forall i :: 0 <= i < |s.bottles| ==> s.bottles[i].x == 60.0
    ensures !UpdatePositions(s, draws).0.isPlaying
  {
    BacklogCountAll(s.bottles);
    BacklogEndsGame(s, draws);
  }
}

=== FILE: gameover.dfy ===
/** The game-over summary: a message chosen by balance thresholds and the
    final belt speed shown beside the balance. */
module GameOverSummary {
  import Speed
  import Session

  const Excellent: string := "Excellent recycling! \U{1F31F}"
  const GreatJob: string := "Great job! \U{1F389}"
  const GoodWork: string := "Good work! \U{1F44D}"
  const KeepTrying: string := "Keep trying! \U{1F4AA}"

  /** The message for a final balance in cents: €5, €2.50 and €1 are the thresholds. */
  function Message(score: int): (m: string)
    ensures m == Excellent <==> score >= 500
    ensures m == GreatJob <==> 250 <= score < 500
    ensures m == GoodWork <==> 100 <= score < 250
    ensures m == KeepTrying <==> score < 100
  {
    if score >= 500 then Excellent
    else if score >= 250 then GreatJob
    else if score >= 100 then GoodWork
    else KeepTrying
  }

  /** The order of the messages, lowest first. */
  function Rank(m: string): int {
    if m == Excellent then 3 else if m == GreatJob then 2 else if m == GoodWork then 1 else 0
  }

  /** A higher balance never gets a lesser message. */
  lemma MessageMonotone(a: int, b: int)
    requires a <= b
    ensures Rank(Message(a)) <= Rank(Message(b))
  {
  }

  /** The final speed as the summary computes it: one tier per €10. */
  function FinalSpeedAsWritten(score: int): (speed: real)
    ensures speed <= Speed.MaxSpeed
    ensures score >= 0 ==> 1.0 <= speed
  {
    var tier := score / 1000;
    var s := 1.0 + (tier as real) * Speed.TierBoost;
    if s < Speed.MaxSpeed then s else Speed.MaxSpeed
  }

  /** The summary's figure never exceeds the belt's real speed. It shows
      the speed of half the tier the belt reached, so it lags exactly for
      final balances from €5 up to €100: at €5 the belt ran at 1.2 but the
      summary shows 1.0. */
  lemma FinalSpeedAsWrittenLags(score: int)
    requires score >= 0
    ensures FinalSpeedAsWritten(score) <= Speed.SpeedFor(score)
    ensures FinalSpeedAsWritten(score) == Speed.SpeedFor(Speed.Tier(score) / 2 * Speed.TierSize)
    ensures FinalSpeedAsWritten(score) < Speed.SpeedFor(score) <==> 500 <= score < 10000
    ensures FinalSpeedAsWritten(500) == 1.0 && Speed.SpeedFor(500) == 1.2
  {
    var k := score / 1000;
    var t := Speed.Tier(score);
    assert t / 2 == k;
    if score < 500 {
      assert t == 0 && k == 0;
    } else if score < 10000 {
      assert k < t && k <= 9;
    } else {
      assert 10 <= k && 20 <= t;
    }
  }

  /** The final speed the summary should show: the speed the belt ran at
      on the last tick, i.e. the engine's tier rule. */
  function FinalSpeed(score: int): (speed: real)
    ensures speed <= Speed.MaxSpeed
    ensures score >= 0 ==> 1.0 <= speed
  {
    Speed.SpeedFor(score)
  }

  /** After a tick of a running game the corrected figure is exactly the
      belt speed, so the summary reports the speed the game ended at. */
  lemma FinalSpeedShowsBeltSpeed(e: Session.Engine, now: int, r: real, pick: real, width: real, draws: nat -> real)
    requires 0.0 <= pick < 1.0 && e.game.isPlaying
    ensures FinalSpeed(e.game.score) == Session.Tick(e, now, r, pick, width, draws).engine.game.conveyorSpeed
  {
  }
}

=== FILE: generator.dfy ===
/** The item factory: turns the random draws of one spawn into a new item. */
module Generator {
  import opened Types

  /** Draws below this give a plastic bottle. */
  const PlasticBelow: real := 0.4
  /** Draws in [PlasticBelow, AluminumBelow) give an aluminium can; the rest glass. */
  const AluminumBelow: real := 0.7
  /** New items start this far beyond the right edge of the viewport. */
  const SpawnMargin: real := 100.0

  const PlasticDeposits: seq<int> := [15, 25]
  const CanDeposit: int := 15
  const GlassColors: seq<Color> := [Green, Clear, Brown]

  /** The item with identifier `id`. `r` is the material draw, `pick` the
      draw that chooses a plastic deposit or a glass colour, and `width`
      the viewport width. Every item starts at rest on the belt, unsettled,
      just off screen. */
  function GenerateBottle(id: int, r: real, pick: real, width: real): (b: Bottle)
    requires 0.0 <= pick < 1.0
    ensures b.id == id
    ensures WellFormed(b)
    ensures r < PlasticBelow ==>
      && b.material == Plastic && b.subType == BottleShape
      && (b.depositValue == Some(15) || b.depositValue == Some(25))
      && b.color == None
    ensures PlasticBelow <= r < AluminumBelow ==>
      && b.material == Aluminum && b.subType == CanShape
      && b.depositValue == Some(15) && b.color == None
    ensures AluminumBelow <= r ==>
      && b.material == Glass && b.subType == BottleShape
      && b.color.Some? && b.depositValue == None
    ensures b.x == width + 100.0 && b.y == 0.0 && b.rotation == Some(0.0)
    ensures b.velocity == Some(Velocity(0.0, 0.0)) && b.isSettled == Some(false)
  {
    var x := width + SpawnMargin;
    var still := Some(Velocity(0.0, 0.0));
    if r < PlasticBelow then
      var deposit := PlasticDeposits[PickIndex(|PlasticDeposits|, pick)];
      Bottle(id, Plastic, BottleShape, None, Some(deposit), x, 0.0, Some(0.0), still, Some(false))
    else if r < AluminumBelow then
      Bottle(id, Aluminum, CanShape, None, Some(CanDeposit), x, 0.0, Some(0.0), still, Some(false))
    else
      var color := GlassColors[PickIndex(|GlassColors|, pick)];
      Bottle(id, Glass, BottleShape, Some(color), None, x, 0.0, Some(0.0), still, Some(false))
  }

  /** The deposit draw splits evenly: the lower half gives 15 cents, the upper 25. */
  lemma PlasticDepositChoice(id: int, r: real, pick: real, width: real)
    requires r < PlasticBelow && 0.0 <= pick < 1.0
    ensures GenerateBottle(id, r, pick, width).depositValue == Some(15) <==> pick < 0.5
    ensures GenerateBottle(id, r, pick, width).depositValue == Some(25) <==> 0.5 <= pick
  {
  }

  /** The colour draw splits in thirds: green, clear, brown in that order. */
  lemma GlassColorChoice(id: int, r: real, pick: real, width: real)
    requires AluminumBelow <= r && 0.0 <= pick < 1.0
    ensures GenerateBottle(id, r, pick, width).color == Some(Green) <==> 3.0 * pick < 1.0
    ensures GenerateBottle(id, r, pick, width).color == Some(Clear) <==> 1.0 <= 3.0 * pick < 2.0
    ensures GenerateBottle(id, r, pick, width).color == Some(Brown) <==> 2.0 <= 3.0 * pick
  {
  }
}

=== FILE: images.dfy ===
/** Choice of the picture an item is drawn with: a decision table from the
    item's attributes to one of five image pools, then a random member of
    that pool. The pools are parameters; loading and caching them is not
    part of this model. */
module Images {
  import opened Types

  datatype Pool = Cents15 | Cents25 | GlassGreen | GlassBrown | GlassWhite

  /** The five image lists, as the asset directories provide them. */
  datatype Pools = Pools(
    cents15: seq<string>,
    cents25: seq<string>,
    glassWhite: seq<string>,
    glassBrown: seq<string>,
    glassGreen: seq<string>)

  /** Returned when the selected pool is empty. */
  const FallbackImage: string := "/images/15c/beer-can-15c.png"

  predicate IsGlassPool(p: Pool) {
    p == GlassGreen || p == GlassBrown || p == GlassWhite
  }

  /** The pool for an item with these attributes. */
  function SelectPool(m: Material, sub: SubType, deposit: Option<int>, color: Option<Color>): (p: Pool)
    ensures (m == Aluminum && sub == CanShape && deposit == Some(15)) ==> p == Cents15
    ensures (m == Plastic && sub == BottleShape && deposit == Some(15)) ==> p == Cents15
    ensures p == Cents25 <==> m == Plastic && sub == BottleShape && deposit == Some(25)
    ensures IsGlassPool(p) <==> m == Glass && sub == BottleShape
    ensures p == GlassGreen <==> m == Glass && sub == BottleShape && color == Some(Green)
    ensures p == GlassBrown <==> m == Glass && sub == BottleShape && color == Some(Brown)
    ensures p == GlassWhite <==> m == Glass && sub == BottleShape && color != Some(Green) && color != Some(Brown)
  {
    if (m == Aluminum && sub == CanShape && deposit == Some(15))
      || (m == Plastic && sub == BottleShape && deposit == Some(15)) then
      Cents15
    else if m == Plastic && sub == BottleShape && deposit == Some(25) then
      Cents25
    else if m == Glass && sub == BottleShape then
      match color
      case Some(Green) => GlassGreen
      case Some(Brown) => GlassBrown
      case _ => GlassWhite
    else
      Cents15
  }

  function PoolImages(pools: Pools, p: Pool): seq<string> {
    match p
    case Cents15 => pools.cents15
    case Cents25 => pools.cents25
    case GlassGreen => pools.glassGreen
    case GlassBrown => pools.glassBrown
    case GlassWhite => pools.glassWhite
  }

  /** The image path for an item; `random` is the draw that picks within the pool. */
  function ImageForBottle(pools: Pools, m: Material, sub: SubType, deposit: Option<int>,
                          color: Option<Color>, random: real): (path: string)
    requires 0.0 <= random < 1.0
    ensures |PoolImages(pools, SelectPool(m, sub, deposit, color))| == 0 ==> path == FallbackImage
    ensures |PoolImages(pools, SelectPool(m, sub, deposit, color))| > 0 ==>
      path in PoolImages(pools, SelectPool(m, sub, deposit, color))
  {
    var images := PoolImages(pools, SelectPool(m, sub, deposit, color));
    if |images| == 0 then FallbackImage else images[PickIndex(|images|, random)]
  }

  /** The pool one would name for an item by looking at it: by deposit for
      plastic, 15 cents for every can, by colour for glass. */
  function IntendedPool(b: Bottle): Pool {
    match b.material
    case Plastic => if b.depositValue == Some(25) then Cents25 else Cents15
    case Aluminum => Cents15
    case Glass =>
      match b.color
      case Some(Green) => GlassGreen
      case Some(Brown) => GlassBrown
      case _ => GlassWhite
  }

  /** For every item the factory can build, the table lands on the intended
      pool: the catch-all 15-cent branch is reached only by items the factory
      never makes. */
  lemma WellFormedSelectsIntendedPool(b: Bottle)
    requires WellFormed(b)
    ensures SelectPool(b.material, b.subType, b.depositValue, b.color) == IntendedPool(b)
  {
  }

  /** Combinations outside the table fall back to the 15-cent pool. */
  lemma OddCombinationsFallBack(deposit: Option<int>, color: Option<Color>)
    ensures deposit != Some(15) ==> SelectPool(Aluminum, CanShape, deposit, color) == Cents15
    ensures SelectPool(Glass, CanShape, deposit, color) == Cents15
    ensures deposit != Some(15) && deposit != Some(25) ==> SelectPool(Plastic, BottleShape, deposit, color) == Cents15
  {
  }
}

=== FILE: scoring.dfy ===
/** Sorting and scoring: what happens when the player drops an item on a bin. */
module Scoring {
  import opened Types

  /** Deducted for a wrong bin: €0.50. */
  const WrongBinPenalty: int := 50
  /** The balance that triggers the win celebration: €100. */
  const WinScore: int := 10000

  /** Deposit-return items belong in the `drs` bin, glass in the bin of its colour. */
  predicate IsCorrectBin(b: Bottle, bin: Bin) {
    || (IsDrs(b.material) && bin == Drs)
    || (b.material == Glass && bin.GlassBin? && b.color == Some(bin.color))
  }

  /** The one bin a well-formed item belongs in. */
  function CorrectBin(b: Bottle): (bin: Bin)
    requires WellFormed(b)
    ensures IsCorrectBin(b, bin)
    ensures forall other: Bin :: IsCorrectBin(b, other) ==> other == bin
  {
    if IsDrs(b.material) then Drs else GlassBin(b.color.value)
  }

  /** The item sequence without the items carrying `id`, in their original order. */
  function RemoveById(bs: seq<Bottle>, id: int): (r: seq<Bottle>)
    ensures forall b :: b in r <==> b in bs && b.id != id
    ensures |r| <= |bs|
  {
    if |bs| == 0 then []
    else (if bs[0].id == id then [] else [bs[0]]) + RemoveById(bs[1..], id)
  }

  /** Removal works piecewise over a concatenation. */
  lemma {:induction false} RemoveByIdAppend(a: seq<Bottle>, b: seq<Bottle>, id: int)
    ensures RemoveById(a + b, id) == RemoveById(a, id) + RemoveById(b, id)
    decreases |a|
  {
    if |a| == 0 {
      assert a + b == b;
    } else {
      assert (a + b)[1..] == a[1..] + b;
      RemoveByIdAppend(a[1..], b, id);
    }
  }

  /** Removing an id nobody carries changes nothing. */
  lemma {:induction false} RemoveByIdAbsent(bs: seq<Bottle>, id: int)
    requires forall i :: 0 <= i < |bs| ==> bs[i].id != id
    ensures RemoveById(bs, id) == bs
    decreases |bs|
  {
    if |bs| > 0 {
      RemoveByIdAbsent(bs[1..], id);
    }
  }

  /** Removing the id of the one item carrying it, between two runs that
      do not carry it, splices that item out. */
  lemma RemoveByIdSplice(before: seq<Bottle>, x: Bottle, after: seq<Bottle>)
    requires forall i :: 0 <= i < |before| ==> before[i].id != x.id
    requires forall i :: 0 <= i < |after| ==> after[i].id != x.id
    ensures RemoveById(before + [x] + after, x.id) == before + after
  {
    var id := x.id;
    RemoveByIdAppend(before + [x], after, id);
    RemoveByIdAppend(before, [x], id);
    RemoveByIdAbsent(before, id);
    RemoveByIdAbsent(after, id);
    assert RemoveById([x], id) == [] by {
      assert [x][1..] == [];
    }
    assert RemoveById(before + [x], id) == before;
  }

  lemma SplitAt<T>(s: seq<T>, k: int)
    requires 0 <= k < |s|
    ensures s == s[..k] + [s[k]] + s[k+1..]
  {
  }

  /** With distinct ids, removal takes out exactly the one item at its
      position and keeps the others in order. */
  lemma RemoveByIdAt(bs: seq<Bottle>, k: int)
    requires 0 <= k < |bs|
    requires DistinctIds(bs)
    ensures RemoveById(bs, bs[k].id) == bs[..k] + bs[k+1..]
  {
    var before, after := bs[..k], bs[k+1..];
    SplitAt(bs, k);
    assert forall i :: 0 <= i < |before| ==> before[i].id != bs[k].id by {
      forall i | 0 <= i < |before| ensures before[i].id != bs[k].id {
        assert before[i] == bs[i];
      }
    }
    assert forall i :: 0 <= i < |after| ==> after[i].id != bs[k].id by {
      forall i | 0 <= i < |after| ensures after[i].id != bs[k].id {
        assert after[i] == bs[k + 1 + i];
      }
    }
    RemoveByIdSplice(before, bs[k], after);
  }

  /** Removal keeps ids distinct. */
  lemma {:induction false} RemoveByIdKeepsDistinct(bs: seq<Bottle>, id: int)
    requires DistinctIds(bs)
    ensures DistinctIds(RemoveById(bs, id))
    decreases |bs|
  {
    if |bs| > 0 {
      var tail := bs[1..];
      assert DistinctIds(tail) by {
        forall i, j | 0 <= i < j < |tail| ensures tail[i].id != tail[j].id {
          assert tail[i] == bs[i + 1] && tail[j] == bs[j + 1];
        }
      }
      RemoveByIdKeepsDistinct(tail, id);
      var rest := RemoveById(tail, id);
      var head: seq<Bottle> := if bs[0].id == id then [] else [bs[0]];
      assert RemoveById(bs, id) == head + rest;
      forall b | b in rest ensures b.id != bs[0].id {
        var k :| 0 <= k < |tail| && tail[k] == b;
        assert tail[k] == bs[k + 1];
      }
      ConcatDistinct(head, rest);
    }
  }

  /** Two id-distinct runs with no id in common concatenate to an id-distinct run. */
  lemma ConcatDistinct(a: seq<Bottle>, b: seq<Bottle>)
    requires DistinctIds(a) && DistinctIds(b)
    requires forall x, y :: x in a && y in b ==> x.id != y.id
    ensures DistinctIds(a + b)
  {
    var c := a + b;
    forall i, j | 0 <= i < j < |c| ensures c[i].id != c[j].id {
      if j < |a| {
        assert c[i] == a[i] && c[j] == a[j];
      } else if i < |a| {
        assert c[i] == a[i] && c[i] in a;
        assert c[j] == b[j - |a|] && c[j] in b;
      } else {
        assert c[i] == b[i - |a|] && c[j] == b[j - |a|];
      }
    }
  }

  /** The money a correct drop earns: the deposit (0 if absent) for
      deposit-return items, nothing for glass. */
  function Reward(b: Bottle): (cents: int)
    ensures b.material == Glass ==> cents == 0
    ensures IsDrs(b.material) && b.depositValue.Some? ==> cents == b.depositValue.value
    ensures b.depositValue.None? ==> cents == 0
  {
    if IsDrs(b.material) then b.depositValue.GetOr(0) else 0
  }

  function Max(a: int, b: int): int {
    if a >= b then a else b
  }

  /** The session after a drop, the events it reports, and whether the drop
      starts the win celebration. */
  datatype DropResult = DropResult(state: GameState, events: seq<Event>, winStarted: bool)

  /** Drop `bottle` on `bin`. `winActive` says whether a win celebration is
      already running. The item is removed either way; a correct drop adds
      the reward, a wrong one deducts the penalty without going below zero. */
  function Drop(s: GameState, bottle: Bottle, bin: Bin, winActive: bool): (r: DropResult)
    ensures r.state.bottles == RemoveById(s.bottles, bottle.id)
    ensures r.state == s.(score := r.state.score, bottles := r.state.bottles)
    ensures IsCorrectBin(bottle, bin) && IsDrs(bottle.material) ==>
      r.state.score == s.score + bottle.depositValue.GetOr(0)
    ensures IsCorrectBin(bottle, bin) && bottle.material == Glass ==> r.state.score == s.score
    ensures !IsCorrectBin(bottle, bin) ==>
      r.state.score == Max(0, s.score - WrongBinPenalty)
    ensures r.winStarted <==> IsCorrectBin(bottle, bin) && r.state.score >= WinScore && !winActive
    ensures IsCorrectBin(bottle, bin) ==>
      && |r.events| >= 2
      && r.events[0] == CrushSound(bottle.material)
      && r.events[|r.events| - 1] == SuccessSound
      && (WinCelebration in r.events <==> r.winStarted)
      && ErrorSound !in r.events
      && |r.events| == (if r.winStarted then 4 else 2)
    ensures IsCorrectBin(bottle, bin) && !r.winStarted ==>
      r.events == [CrushSound(bottle.material), SuccessSound]
    ensures r.winStarted ==>
      r.events == [CrushSound(bottle.material), WinCelebration, SuccessSound, SuccessSound]
    ensures !IsCorrectBin(bottle, bin) ==> r.events == [ErrorSound]
  {
    var remaining := RemoveById(s.bottles, bottle.id);
    if IsCorrectBin(bottle, bin) then
      var newScore := s.score + Reward(bottle);
      var win := newScore >= WinScore && !winActive;
      var events := [CrushSound(bottle.material)]
        + (if win then [WinCelebration, SuccessSound] else [])
        + [SuccessSound];
      DropResult(s.(bottles := remaining, score := newScore), events, win)
    else
      DropResult(s.(bottles := remaining, score := Max(0, s.score - WrongBinPenalty)), [ErrorSound], false)
  }

  /** The balance never goes negative: a non-negative score stays
      non-negative after any drop of a factory-built item. */
  lemma DropKeepsScoreNonNegative(s: GameState, bottle: Bottle, bin: Bin, winActive: bool)
    requires s.score >= 0 && WellFormed(bottle)
    ensures Drop(s, bottle, bin, winActive).state.score >= 0
    ensures !IsCorrectBin(bottle, bin) ==> Drop(s, bottle, bin, winActive).state.score <= s.score
    ensures IsCorrectBin(bottle, bin) ==> Drop(s, bottle, bin, winActive).state.score >= s.score
  {
  }

  /** A €0.15 plastic bottle in the `drs` bin on an empty balance leaves €0.15 and no item. */
  lemma PlasticDropScenario(s: GameState, b: Bottle)
    requires s.score == 0 && s.bottles == [b]
    requires b.material == Plastic && b.depositValue == Some(15)
    ensures Drop(s, b, Drs, false).state.score == 15
    ensures Drop(s, b, Drs, false).state.bottles == []
  {
  }

  /** A green glass bottle in the `clear` bin costs €0.50, floored at zero. */
  lemma WrongGlassScenario(s: GameState, b: Bottle)
    requires b.material == Glass && b.color == Some(Green)
    ensures !IsCorrectBin(b, GlassBin(Clear))
    ensures Drop(s, b, GlassBin(Clear), false).state.score == Max(0, s.score - 50)
  {
  }

  /** From €99.90, a correct 15-cent drop reaches €100.05 and starts the win exactly once. */
  lemma WinScenario(s: GameState, b: Bottle)
    requires s.score == 9990 && WellFormed(b) && IsDrs(b.material) && b.depositValue == Some(15)
    ensures Drop(s, b, Drs, false).state.score == 10005
    ensures Drop(s, b, Drs, false).winStarted
    ensures !Drop(Drop(s, b, Drs, false).state, b, Drs, true).winStarted
  {
  }
}

=== FILE: session.dfy ===
/** The session state machine: spawning, the main tick, drops, restart and
    the end of the win celebration, as pure steps over the session record
    and the values the engine keeps beside it. */
module Session {
  import opened Types
  import Generator
  import Scoring
  import Speed
  import Conveyor

  /** Minimum time between two spawns, in milliseconds (exclusive). */
  const SpawnInterval: int := 2500

  /** The session record together with the time of the last spawn, the
      remembered speed tier and whether a win celebration is running. */
  datatype Engine = Engine(game: GameState, lastSpawn: int, lastTier: int, winActive: bool)

  /** Well-formed items with distinct ids, all below the id counter, a
      non-negative balance and remembered tier, and a belt speed within
      the range the speed tiers produce. */
  predicate Valid(e: Engine) {
    var bs := e.game.bottles;
    && e.game.score >= 0
    && e.game.nextBottleId >= 0
    && e.lastTier >= 0
    && 1.0 <= e.game.conveyorSpeed <= Speed.MaxSpeed
    && (forall i :: 0 <= i < |bs| ==> 0 <= bs[i].id < e.game.nextBottleId && WellFormed(bs[i]))
    && DistinctIds(bs)
  }

  /** A fresh game: nothing earned, running, an empty belt at speed 1, and
      the id counter, spawn clock and remembered tier back at zero. The win
      flag is not the restart's to clear. */
  function Restart(e: Engine): (r: Engine)
    ensures r.game == GameState(0, 1, true, [], 1.0, 0)
    ensures r.lastSpawn == 0 && r.lastTier == 0 && r.winActive == e.winActive
    ensures Valid(r)
  {
    Engine(GameState(0, 1, true, [], 1.0, 0), 0, 0, e.winActive)
  }

  /** The spawn step at time `now`. More than 2.5 s after the last spawn it
      appends one new item carrying the next id and advances the counter;
      otherwise nothing changes. `r` and `pick` are the factory's draws,
      `width` the viewport width. */
  function Spawn(e: Engine, now: int, r: real, pick: real, width: real): (e': Engine)
    requires 0.0 <= pick < 1.0
    ensures now - e.lastSpawn > SpawnInterval ==>
      && |e'.game.bottles| == |e.game.bottles| + 1
      && e'.game.bottles[..|e.game.bottles|] == e.game.bottles
      && e'.game.bottles[|e.game.bottles|] == Generator.GenerateBottle(e.game.nextBottleId, r, pick, width)
      && e'.game.nextBottleId == e.game.nextBottleId + 1
      && e'.lastSpawn == now
      && e'.game == e.game.(bottles := e'.game.bottles, nextBottleId := e'.game.nextBottleId)
      && e' == e.(game := e'.game, lastSpawn := now)
    ensures now - e.lastSpawn <= SpawnInterval ==> e' == e
    ensures Valid(e) ==> Valid(e')
  {
    if now - e.lastSpawn > SpawnInterval then
      var item := Generator.GenerateBottle(e.game.nextBottleId, r, pick, width);
      var game := e.game.(bottles := e.game.bottles + [item], nextBottleId := e.game.nextBottleId + 1);
      e.(game := game, lastSpawn := now)
    else
      e
  }

  /** The result of one main tick: the engine afterwards and the events it reported. */
  datatype TickResult = TickResult(engine: Engine, events: seq<Event>)

  /** One main tick: while the game runs, spawn, then transport with the
      game-over check, then set the belt speed from the balance and announce
      a newly reached tier. A stopped game does not tick. */
  function Tick(e: Engine, now: int, r: real, pick: real, width: real, draws: nat -> real): (t: TickResult)
    requires 0.0 <= pick < 1.0
    ensures !e.game.isPlaying ==> t == TickResult(e, [])
    ensures e.game.isPlaying ==>
      var sp := Spawn(e, now, r, pick, width);
      && t.engine.game.bottles == Conveyor.Transport(sp.game.bottles, e.game.conveyorSpeed, draws)
      && (t.engine.game.isPlaying <==> !Conveyor.Overflowing(t.engine.game.bottles))
      && t.engine.game.nextBottleId == sp.game.nextBottleId
      && t.engine.lastSpawn == sp.lastSpawn
      && t.events == Conveyor.UpdatePositions(sp.game, draws).1
           + (if Speed.Tier(e.game.score) > e.lastTier && Speed.Tier(e.game.score) > 0
              then [SpeedUp(Speed.SpeedFor(e.game.score), Speed.Tier(e.game.score) * 5)]
              else [])
      && t.engine.game.conveyorSpeed == Speed.SpeedFor(e.game.score)
      && t.engine.lastTier == (if Speed.Tier(e.game.score) > e.lastTier && Speed.Tier(e.game.score) > 0
                               then Speed.Tier(e.game.score) else e.lastTier)
    ensures t.engine.game.isPlaying ==> e.game.isPlaying
    ensures t.engine.game.score == e.game.score && t.engine.winActive == e.winActive
    ensures t.engine.game.level == e.game.level
    ensures Valid(e) ==> Valid(t.engine)
  {
    if !e.game.isPlaying then
      TickResult(e, [])
    else
      var spawned := Spawn(e, now, r, pick, width);
      var (moved, transportEvents) := Conveyor.UpdatePositions(spawned.game, draws);
      var u := Speed.SpeedCheck(moved.score, spawned.lastTier);
      var speedEvents := if u.event.Some? then [u.event.value] else [];
      Conveyor.TransportKeepsItems(spawned.game.bottles, spawned.game.conveyorSpeed, draws);
      TickResult(
        spawned.(game := moved.(conveyorSpeed := u.speed), lastTier := u.lastTier),
        transportEvents + speedEvents)
  }

  /** The result of a drop: the engine afterwards and the events it reported. */
  datatype DropOutcome = DropOutcome(engine: Engine, events: seq<Event>)

  /** The player drops `bottle` on `bin`; a drop that reaches the win
      balance while no celebration runs starts one. */
  function DropItem(e: Engine, bottle: Bottle, bin: Bin): (d: DropOutcome)
    ensures d.engine.game == Scoring.Drop(e.game, bottle, bin, e.winActive).state
    ensures d.events == Scoring.Drop(e.game, bottle, bin, e.winActive).events
    ensures d.engine.winActive <==>
      e.winActive || (Scoring.IsCorrectBin(bottle, bin) && d.engine.game.score >= Scoring.WinScore)
    ensures d.engine.lastTier == e.lastTier && d.engine.lastSpawn == e.lastSpawn
  {
    var result := Scoring.Drop(e.game, bottle, bin, e.winActive);
    DropOutcome(e.(game := result.state, winActive := e.winActive || result.winStarted), result.events)
  }

  /** A drop of a well-formed item keeps the engine valid: removal keeps ids
      distinct and below the counter, and the balance stays non-negative. */
  lemma DropKeepsValid(e: Engine, bottle: Bottle, bin: Bin)
    requires Valid(e) && WellFormed(bottle)
    ensures Valid(DropItem(e, bottle, bin).engine)
  {
    var bs := e.game.bottles;
    var r := DropItem(e, bottle, bin).engine.game.bottles;
    Scoring.DropKeepsScoreNonNegative(e.game, bottle, bin, e.winActive);
    Scoring.RemoveByIdKeepsDistinct(bs, bottle.id);
    forall i | 0 <= i < |r| ensures 0 <= r[i].id < e.game.nextBottleId && WellFormed(r[i]) {
      assert r[i] in r;
      var k :| 0 <= k < |bs| && bs[k] == r[i];
    }
  }

  /** The end of the win celebration: the flag is cleared and the game restarts. */
  function WinTimeout(e: Engine): (r: Engine)
    ensures r.game == GameState(0, 1, true, [], 1.0, 0)
    ensures r.lastSpawn == 0 && r.lastTier == 0
    ensures !r.winActive
    ensures Valid(r)
  {
    Restart(e.(winActive := false))
  }
}

=== FILE: speed.dfy ===
/** Speed tiers: the belt speed derived from the balance, and the one-shot
    speed-up event that a remembered "last tier" keeps from repeating. */
module Speed {
  import opened Types

  /** One tier per €5 of balance, in cents. */
  const TierSize: int := 500
  /** Each tier adds this much to the base speed of 1. */
  const TierBoost: real := 0.2
  const MaxSpeed: real := 3.0

  /** `Math.floor(score / 5)` with the score in euros. */
  function Tier(score: int): (t: int)
    ensures t * TierSize <= score < (t + 1) * TierSize
    ensures score >= 0 ==> t >= 0
  {
    score / TierSize
  }

  /** The belt speed multiplier for a balance. */
  function SpeedFor(score: int): (speed: real)
    ensures speed <= MaxSpeed
    ensures score >= 0 ==> 1.0 <= speed
  {
    var s := 1.0 + (Tier(score) as real) * TierBoost;
    if s < MaxSpeed then s else MaxSpeed
  }

  /** Below €50 every tier adds 0.2; from €50 on the speed stays at the cap. */
  lemma SpeedForTiers(score: int)
    ensures score < 5000 ==> SpeedFor(score) == 1.0 + 0.2 * (Tier(score) as real)
    ensures score >= 5000 ==> SpeedFor(score) == MaxSpeed
  {
  }

  lemma TierMonotone(a: int, b: int)
    requires a <= b
    ensures Tier(a) <= Tier(b)
  {
  }

  /** A higher balance never means a slower belt. */
  lemma SpeedMonotone(a: int, b: int)
    requires a <= b
    ensures SpeedFor(a) <= SpeedFor(b)
  {
  }

  /** The outcome of the per-tick speed check: the new belt speed, the
      remembered tier afterwards, and the speed-up event if one fires. */
  datatype SpeedUpdate = SpeedUpdate(speed: real, lastTier: int, event: Option<Event>)

  /** The tick's speed check. The event fires only on a tier above every
      tier seen before (and above 0); it carries the new speed and the
      milestone in euros, and the tier is remembered. */
  function SpeedCheck(score: int, lastTier: int): (u: SpeedUpdate)
    ensures u.speed == SpeedFor(score)
    ensures u.event.Some? <==> Tier(score) > lastTier && Tier(score) > 0
    ensures u.event.Some? ==>
      && u.event.value == SpeedUp(u.speed, Tier(score) * 5)
      && u.lastTier == Tier(score)
    ensures u.event.None? ==> u.lastTier == lastTier
    ensures u.lastTier >= lastTier
  {
    var tier := Tier(score);
    var speed := SpeedFor(score);
    if tier > lastTier && tier > 0 then
      SpeedUpdate(speed, tier, Some(SpeedUp(speed, tier * 5)))
    else
      SpeedUpdate(speed, lastTier, None)
  }

  /** The tiers announced while the balance runs through `scores`, one
      speed check per entry, starting from remembered tier `lastTier`. */
  function FiredTiers(scores: seq<int>, lastTier: int): seq<int>
    decreases |scores|
  {
    if |scores| == 0 then []
    else
      var u := SpeedCheck(scores[0], lastTier);
      (if u.event.Some? then [Tier(scores[0])] else []) + FiredTiers(scores[1..], u.lastTier)
  }

  /** The remembered tier after running through `scores`. */
  function LastTierAfter(scores: seq<int>, lastTier: int): int
    decreases |scores|
  {
    if |scores| == 0 then lastTier
    else LastTierAfter(scores[1..], SpeedCheck(scores[0], lastTier).lastTier)
  }

  /** However the balance moves, the announced tiers are positive, above the
      starting tier and strictly increasing, so no tier is announced twice;
      the remembered tier never drops and ends at the last one announced. */
  lemma {:induction false} FiredTiersIncrease(scores: seq<int>, lastTier: int)
    ensures forall i :: 0 <= i < |FiredTiers(scores, lastTier)| ==>
      lastTier < FiredTiers(scores, lastTier)[i] && 0 < FiredTiers(scores, lastTier)[i]
    ensures forall i, j :: 0 <= i < j < |FiredTiers(scores, lastTier)| ==>
      FiredTiers(scores, lastTier)[i] < FiredTiers(scores, lastTier)[j]
    ensures lastTier <= LastTierAfter(scores, lastTier)
    ensures forall i :: 0 <= i < |FiredTiers(scores, lastTier)| ==>
      FiredTiers(scores, lastTier)[i] <= LastTierAfter(scores, lastTier)
    ensures |FiredTiers(scores, lastTier)| == 0 ==> LastTierAfter(scores, lastTier) == lastTier
    ensures |FiredTiers(scores, lastTier)| > 0 ==>
      LastTierAfter(scores, lastTier) == FiredTiers(scores, lastTier)[|FiredTiers(scores, lastTier)| - 1]
    decreases |scores|
  {
    if |scores| > 0 {
      var u := SpeedCheck(scores[0], lastTier);
      var rest := FiredTiers(scores[1..], u.lastTier);
      FiredTiersIncrease(scores[1..], u.lastTier);
      var head: seq<int> := if u.event.Some? then [Tier(scores[0])] else [];
      assert FiredTiers(scores, lastTier) == head + rest;
      assert LastTierAfter(scores, lastTier) == LastTierAfter(scores[1..], u.lastTier);
    }
  }

  /** A balance rising €4.90, €5.10, €9.90, €10.10 announces exactly two
      speed-ups, at €5 and at €10. */
  lemma TwoCrossingsScenario()
    ensures FiredTiers([490, 510, 990, 1010], 0) == [1, 2]
  {
  }
}

=== FILE: types.dfy ===
/** Data model of the recycling game: the sortable item, the session record,
    the bins an item can be dropped on and the abstract events the core
    reports to its audio and visual collaborators. */
module Types {

  /** An optional value; stands for a TypeScript field marked `?`. */
  datatype Option<+T> = None | Some(value: T) {
    /** The value, or `default` when absent (the `field || default` idiom). */
    function GetOr(default: T): T {
      match this
      case Some(v) => v
      case None => default
    }
  }

  datatype Material = Plastic | Glass | Aluminum

  datatype SubType = BottleShape | CanShape

  datatype Color = Green | Clear | Brown

  datatype Velocity = Velocity(vx: real, vy: real)

  /** One item on the belt. `depositValue` is in cents. */
  datatype Bottle = Bottle(
    id: int,
    material: Material,
    subType: SubType,
    color: Option<Color>,
    depositValue: Option<int>,
    x: real,
    y: real,
    rotation: Option<real>,
    velocity: Option<Velocity>,
    isSettled: Option<bool>)
  {
    /** `velocity && !isSettled` under JavaScript truthiness: any velocity
        object counts (even a zero one), a missing flag reads as false. */
    predicate InMotion() {
      velocity.Some? && isSettled != Some(true)
    }
  }

  /** The session record. `score` is in cents; `level` is kept at 1. */
  datatype GameState = GameState(
    score: int,
    level: int,
    isPlaying: bool,
    bottles: seq<Bottle>,
    conveyorSpeed: real,
    nextBottleId: int)

  /** The four bins: `drs`, and one per glass colour (`green`, `clear`, `brown`). */
  datatype Bin = Drs | GlassBin(color: Color)

  /** Abstract events for the collaborators (sounds and celebrations). */
  datatype Event =
    | CrushSound(material: Material)
    | SuccessSound
    | ErrorSound
    | WinCelebration
    | SpeedUp(newSpeed: real, milestone: int)

  /** Materials that go to the deposit-return bin. */
  predicate IsDrs(m: Material) {
    m == Plastic || m == Aluminum
  }

  /** The shape every item has when the factory builds it: cans are exactly
      the aluminium items, a colour exactly on glass, a deposit of 15 or 25
      cents exactly on deposit-return items. */
  predicate WellFormed(b: Bottle) {
    && (b.subType == CanShape <==> b.material == Aluminum)
    && (b.color.Some? <==> b.material == Glass)
    && (b.depositValue.Some? <==> IsDrs(b.material))
    && (b.depositValue.Some? ==> b.depositValue.value == 15 || b.depositValue.value == 25)
  }

  /** No two items share an id. */
  predicate DistinctIds(bs: seq<Bottle>) {
    forall i, j :: 0 <= i < j < |bs| ==> bs[i].id != bs[j].id
  }

  /** The index `Math.floor(random * n)` for a draw `random` in [0, 1). */
  function PickIndex(n: nat, random: real): (i: nat)
    requires n > 0 && 0.0 <= random < 1.0
    ensures i < n
    ensures (i as real) <= random * (n as real) < (i as real) + 1.0
  {
    var scaled := random * (n as real);
    ScaledBelow(n, random);
    scaled.Floor
  }

  /** A draw in [0, 1) scaled by `n` stays below `n` (and at most `n` when `n` is 0). */
  lemma {:induction false} ScaledBelow(n: nat, random: real)
    requires 0.0 <= random < 1.0
    ensures 0.0 <= random * (n as real) <= n as real
    ensures n > 0 ==> random * (n as real) < n as real
  {
    if n > 0 {
      ScaledBelow(n - 1, random);
      assert random * (n as real) == random * ((n - 1) as real) + random;
    }
  }
}
